=== FILE: README.md ===
# Sensors catalog: a Dafny model

This project models the in-memory sensor catalog of
`submit/prj1-sol/src/lib/sensors-info.ts` and proves properties about it.

- **`IndexedCollection<T>`** is a keyed store. It holds records by primary key (`objects`). For each secondary key it keeps an index from the field's printed value to a bucket of ids (`indexes`). `find` narrows the candidate ids by the primary key and by intersecting buckets, then returns the records in ascending id order.
- **`SensorsInfo`** owns two collections and a map from sensor id to that sensor's readings:
  - sensor types, indexed by manufacturer, model number and quantity;
  - sensors, indexed by sensor type id.
- **Operations.** It adds sensor types, sensors and readings as upserts, checks references and range containment, and answers searches. A search runs the index lookup, then the residual exact-match `filter`. A reading search uses inclusive, optional bounds.
- **Batch loading.** `addSensorsInfo` and `makeSensorsInfo` load lists of entities and fail fast.

How the model is laid out:

- **Proof structure.** The mutable objects are Dafny classes: `Collection.IndexedCollection` and `Info.SensorsInfo`.
  - Their methods mirror the source's loops and updates.
  - Each `SensorsInfo` update is proved to take one step of a pure specification. That specification is `CatalogSpec`: a catalog value, one step function per operation, and the fail-fast batch `ApplyAll`.
  - The catalog invariant `Consistent` is proved to hold after every step. It requires ids to match keys, references to name stored records, and timestamps to be distinct within each sensor's list.
  - `filter` and `intersection` are pure functions.
- **Validators.** The validators are not part of this model: `makeSensorType`, `makeSensor`, `makeSensorReading` and `validateFindCommand`.
  - Each operation takes the validator's result as its parameter.
  - A failed validation is returned unchanged and changes nothing.
  - `isSubrange` is inclusive containment.
- **Field access.** A record's field access by name (`obj[k]`) is a projection function: `Entities.SensorTypeField` or `Entities.SensorField`. It yields a string, a number, a nested range or nothing. `String(obj[k])` is `Entities.Stringify`.
- **Index staleness is reproduced.**
  - `add` never removes a replaced record's id from the buckets of its old field values (`WithIndexedKeepsBuckets`).
  - The collection invariant allows this. Every bucket holds live ids only, and every live record is in the bucket of its current value.
  - Stale ids survive the index lookup. When every indexed search value is non-empty, the residual filter removes them from search results, because a stale record no longer carries the searched value.
  - When the search gives an indexed key an empty value, `find` still narrows to the bucket of the empty string (lines 292-297), and `filter` admits every record for that key (line 249). A stale id in that bucket is then returned. For example: add type `a` with manufacturer `""`, re-add `a` with manufacturer `"acme"`, and add `b` with manufacturer `"acme"`; a search for manufacturer `""` returns `a` and not `b`.
  - `FindSensorTypes` and `FindSensors` promise only that every result is a stored record the filter selects, which holds in both cases.

Slips in the source text are modelled as evidently intended:

- The constructor initialises `indexes` (line 265 assigns a misspelt field).
- `add` creates a missing bucket (line 281 calls `.add` on a bucket that may be absent).
- `addSensorReading` looks up the reading's own `sensorId` (line 105 names an undefined `sensor`).
- Both BAD_ID errors are built by `Errors.errResult` (lines 75 and 108 write `Error.errResult`).
- The reading's BAD_ID error is tagged with field `sensorId` (line 108 writes `sensorTypeId`).
- `findSensorTypes` and `findSensors` return the filtered list itself (lines 135 and 151 wrap it in another array).

The range-containment error is modelled as line 81 builds it, without a code.

An empty value for an indexed key still narrows `find`, to the bucket of the empty string (lines 292-297), while `filter` treats an empty value as a wildcard (line 249).

## Model

| member | source | states |
|---|---|---|
| Collection.Intersection | submit/prj1-sol/src/lib/sensors-info.ts:303-307 | holds exactly the elements in both sets, whichever set is the smaller |
| Collection.IndexedCollection.constructor | submit/prj1-sol/src/lib/sensors-info.ts:262-267 | empty store, one empty index per secondary key, invariant established |
| Collection.IndexedCollection.Clear | submit/prj1-sol/src/lib/sensors-info.ts:269-274 | no records remain; every index is kept but has no buckets; invariant kept |
| Collection.IndexedCollection.Add | submit/prj1-sol/src/lib/sensors-info.ts:276-283 | the record is stored under its id, replacing any record with that id, and no other record changes; its id joins the bucket of its current value in every index; invariant kept |
| Collection.IndexedCollection.WithIndexedKeepsBuckets | submit/prj1-sol/src/lib/sensors-info.ts:279-282 | adding never removes an id from a bucket: old bucket memberships stay (staleness) |
| Collection.IndexedCollection.WithIndexedValid | submit/prj1-sol/src/lib/sensors-info.ts:276-283 | adding a record preserves the collection invariant |
| Collection.IndexedCollection.Find | submit/prj1-sol/src/lib/sensors-info.ts:285-300 | results are in strictly ascending id order (so no duplicates); every result is the stored record of an id that survives the narrowing; every surviving id's record is returned |
| Collection.IndexedCollection.RecordsOf | submit/prj1-sol/src/lib/sensors-info.ts:299 | mapping sorted live ids to their records keeps the order and yields exactly those records |
| Collection.IndexedCollection.FindById | submit/prj1-sol/src/lib/sensors-info.ts:286-288 | a search by a non-empty id alone returns one record iff that id is stored, and it is the record with that id |
| Collection.IndexedCollection.FindWithoutCriteria | submit/prj1-sol/src/lib/sensors-info.ts:286-289 | a search with no criteria (or only an empty id) returns every stored record |
| Collection.IndexedCollection.FindMissingBucket | submit/prj1-sol/src/lib/sensors-info.ts:293-297 | an indexed field whose value has no bucket leaves no candidates, so nothing is returned |
| Collection.IndexedCollection.MatchesComplete | submit/prj1-sol/src/lib/sensors-info.ts:285-298 | the index narrowing loses no record the residual filter would keep, when every indexed search value is non-empty and the record's key fields are strings |
| StringOrder.Less | submit/prj1-sol/src/lib/sensors-info.ts:299 | nothing sorts before the empty string; a proper prefix sorts before the longer string |
| StringOrder.LessIsLexicographic | submit/prj1-sol/src/lib/sensors-info.ts:299 | the sort order is lexicographic: a proper prefix, or a smaller character at the first difference |
| StringOrder.LessIrreflexive | submit/prj1-sol/src/lib/sensors-info.ts:299 | the default string sort order is irreflexive |
| StringOrder.LessTransitive | submit/prj1-sol/src/lib/sensors-info.ts:299 | the default string sort order is transitive |
| StringOrder.LessTotal | submit/prj1-sol/src/lib/sensors-info.ts:299 | any two different strings are ordered one way or the other |
| StringOrder.InsertSorted | submit/prj1-sol/src/lib/sensors-info.ts:299 | inserting a new id into a strictly ascending list keeps it strictly ascending and adds exactly that id |
| StringOrder.SortIds | submit/prj1-sol/src/lib/sensors-info.ts:299 | `[...ids].sort()` yields a strictly ascending list holding exactly the set's ids |
| Filters.Check | submit/prj1-sol/src/lib/sensors-info.ts:248-249 | an empty search value admits every object; a non-empty one never admits a numeric or object field (strict equality) |
| Filters.Selects | submit/prj1-sol/src/lib/sensors-info.ts:250-251 | the empty search selects everything; a selected object carries exactly the searched string in every present field the search names with a non-empty value |
| Filters.Filter | submit/prj1-sol/src/lib/sensors-info.ts:247-253 | keeps an element iff every search pair has an empty value, an undefined field, or a field strictly equal to the value; never lengthens the list |
| Filters.FilterKeepsOrder | submit/prj1-sol/src/lib/sensors-info.ts:252 | any pairwise order of the input list holds in the filtered list (input order kept) |
| Entities.NatToString | submit/prj1-sol/src/lib/sensors-info.ts:280 | a natural number prints as decimal digits with no leading zero |
| Entities.NatToStringRoundTrip | submit/prj1-sol/src/lib/sensors-info.ts:280 | reading the printed digits back gives the number |
| Entities.Stringify | submit/prj1-sol/src/lib/sensors-info.ts:280 | a string field is indexed under itself, an absent one under "undefined"; a non-negative number under `NatToString` of it, a negative one under "-" followed by `NatToString` of its magnitude, so a leading minus appears exactly when negative |
| Entities.SensorTypeField | submit/prj1-sol/src/lib/sensors-info.ts:277-280 | a sensor type's id and indexed fields are strings |
| Entities.SensorField | submit/prj1-sol/src/lib/sensors-info.ts:277-280 | a sensor's id and sensor type id are strings |
| ReadingSearch.WithBound | submit/prj1-sol/src/lib/sensors-info.ts:242 | setting one bound changes that bound only |
| ReadingSearch.MakeSensorReadingsSearch | submit/prj1-sol/src/lib/sensors-info.ts:231-245 | the search carries the request's sensor id and each bound the request gives; every other bound is open |
| ReadingSearch.Within | submit/prj1-sol/src/lib/sensors-info.ts:171-176 | keeps exactly the readings within all four inclusive bounds |
| ReadingSearch.InsertByTimestamp | submit/prj1-sol/src/lib/sensors-info.ts:177 | inserting into a list ascending by timestamp keeps it ascending and adds exactly that reading |
| ReadingSearch.SortByTimestamp | submit/prj1-sol/src/lib/sensors-info.ts:177 | the result is ascending by timestamp and a permutation of the input |
| CatalogSpec.IndexOfTimestamp | submit/prj1-sol/src/lib/sensors-info.ts:111-112 | the first index holding the timestamp, or -1 exactly when no reading has it |
| CatalogSpec.Upsert | submit/prj1-sol/src/lib/sensors-info.ts:110-118 | the reading ends up in the list; nothing but it is added; the list grows by one exactly when no reading has its timestamp |
| CatalogSpec.UpsertProperties | submit/prj1-sol/src/lib/sensors-info.ts:110-118 | a reading at the same timestamp is replaced at its own index and the length is kept; otherwise the reading is appended; every other reading stays; timestamps stay distinct |
| CatalogSpec.Clear | submit/prj1-sol/src/lib/sensors-info.ts:30-36 | all three collections are empty; the result is an ok empty list |
| CatalogSpec.AddSensorType | submit/prj1-sol/src/lib/sensors-info.ts:47-54 | upsert by id: the new id maps to the type, other ids unchanged, the rest of the catalog unchanged; result is the one-element list; a validation failure changes nothing |
| CatalogSpec.AddSensor | submit/prj1-sol/src/lib/sensors-info.ts:66-85 | fails with BAD_ID exactly when the type id is not a stored key (an exact lookup, the empty id included); fails with the code-less range error when the stored type does not contain the expected range; succeeds iff the type is stored and contains the expected range; on success it is an upsert by id; on failure nothing changes |
| CatalogSpec.AddSensorReading | submit/prj1-sol/src/lib/sensors-info.ts:97-120 | fails with BAD_ID exactly when the sensor id is not a stored key (an exact lookup, the empty id included), changing nothing; otherwise only that sensor's list changes, by upsert on timestamp |
| CatalogSpec.AddSensorTypePreservesConsistency | submit/prj1-sol/src/lib/sensors-info.ts:47-54 | adding a sensor type keeps the catalog invariant |
| CatalogSpec.AddSensorPreservesConsistency | submit/prj1-sol/src/lib/sensors-info.ts:66-85 | adding a sensor keeps the catalog invariant: every sensor's type is stored |
| CatalogSpec.AddSensorReadingPreservesConsistency | submit/prj1-sol/src/lib/sensors-info.ts:97-120 | adding a reading keeps the catalog invariant: every list belongs to a stored sensor and has distinct timestamps |
| CatalogSpec.ApplyAll | submit/prj1-sol/src/lib/sensors-info.ts:201-212 | an empty batch succeeds and changes nothing; a failure comes from an item; a failing first item ends the batch with its own catalog and errors |
| CatalogSpec.AddSensorsInfo | submit/prj1-sol/src/lib/sensors-info.ts:196-214 | a failing type phase ends the load with its outcome, before any sensor; a failing sensor phase ends it before any reading; once types and sensors succeed the reading phase decides the outcome; the load succeeds exactly when all three phases do; an empty load succeeds and changes nothing |
| CatalogSpec.ApplyAllSnoc | submit/prj1-sol/src/lib/sensors-info.ts:201-212 | after a successful prefix, one more item's step decides the batch's outcome |
| CatalogSpec.ApplyAllStopsAtFailure | submit/prj1-sol/src/lib/sensors-info.ts:201-212 | after the first failure no further item is applied |
| CatalogSpec.FirstFailure | submit/prj1-sol/src/lib/sensors-info.ts:196-214 | a failed batch ends at a first failing item: every item before it succeeded and stays applied, and the failure's errors are returned |
| CatalogSpec.ApplyAllPreservesConsistency | submit/prj1-sol/src/lib/sensors-info.ts:201-212 | a batch of invariant-preserving steps preserves the invariant |
| CatalogSpec.AddSensorsInfoPreservesConsistency | submit/prj1-sol/src/lib/sensors-info.ts:196-214 | loading types, then sensors, then readings keeps the catalog invariant |
| Info.SensorsInfo.constructor | submit/prj1-sol/src/lib/sensors-info.ts:21-27 | a new catalog is empty and its collections are keyed and indexed as the source builds them |
| Info.SensorsInfo.Clear | submit/prj1-sol/src/lib/sensors-info.ts:30-36 | takes the `CatalogSpec.Clear` step: everything emptied, ok empty list |
| Info.SensorsInfo.AddSensorType | submit/prj1-sol/src/lib/sensors-info.ts:47-54 | takes the `CatalogSpec.AddSensorType` step; invariant kept |
| Info.SensorsInfo.AddSensor | submit/prj1-sol/src/lib/sensors-info.ts:66-85 | takes the `CatalogSpec.AddSensor` step (reference check, range check, upsert); invariant kept |
| Info.SensorsInfo.AddSensorReading | submit/prj1-sol/src/lib/sensors-info.ts:97-120 | takes the `CatalogSpec.AddSensorReading` step (reference check, then replace in place or append); invariant kept |
| Info.SensorsInfo.FindSensorType | submit/prj1-sol/src/lib/sensors-info.ts:71-74 | the type lookup returns one record iff the id is a stored key, the empty id included, and that record is the stored type |
| Info.SensorsInfo.FindSensor | submit/prj1-sol/src/lib/sensors-info.ts:104-107 | the sensor lookup returns one record iff the id is a stored key, the empty id included |
| Info.SensorsInfo.FindSensorTypes | submit/prj1-sol/src/lib/sensors-info.ts:126-136 | a validation failure is returned as is; otherwise strictly ascending by id; every result is a stored type the filter selects; when every indexed value is non-empty, every stored type the filter selects is returned |
| Info.SensorsInfo.FindSensors | submit/prj1-sol/src/lib/sensors-info.ts:142-152 | as FindSensorTypes, for sensors |
| Info.SensorsInfo.TypeMatchesComplete | submit/prj1-sol/src/lib/sensors-info.ts:131-134 | for sensor types, index narrowing loses no type the filter selects when indexed values are non-empty |
| Info.SensorsInfo.SensorMatchesComplete | submit/prj1-sol/src/lib/sensors-info.ts:147-150 | for sensors, index narrowing loses no sensor the filter selects when indexed values are non-empty |
| Info.SensorsInfo.FindSensorReadings | submit/prj1-sol/src/lib/sensors-info.ts:162-179 | a validation failure is returned as is; otherwise the result is ascending by timestamp; it holds exactly the sensor's stored readings within the inclusive bounds, as a permutation of them; an unknown sensor gives an empty list; nothing is modified |
| Info.SensorsInfo.AddSensorTypes | submit/prj1-sol/src/lib/sensors-info.ts:201-204 | the sensor-type loop applies the `CatalogSpec.AddSensorType` steps in order and stops at the first failure |
| Info.SensorsInfo.AddSensors | submit/prj1-sol/src/lib/sensors-info.ts:205-208 | the sensor loop applies the `CatalogSpec.AddSensor` steps in order and stops at the first failure |
| Info.SensorsInfo.AddSensorReadings | submit/prj1-sol/src/lib/sensors-info.ts:209-212 | the reading loop applies the `CatalogSpec.AddSensorReading` steps in order and stops at the first failure |
| Info.AddSensorsInfo | submit/prj1-sol/src/lib/sensors-info.ts:196-214 | loads types, then sensors, then readings, fail-fast; the catalog and the result are those of `CatalogSpec.AddSensorsInfo` |
| Info.MakeSensorsInfo | submit/prj1-sol/src/lib/sensors-info.ts:185-194 | a fresh catalog loaded from the three lists, or the first failure's errors |
| AsWritten.LookupAsWritten | submit/prj1-sol/src/lib/sensors-info.ts:71-74 | the reference lookup as written: a non-empty id finds its own record; an empty id succeeds exactly when one record is stored |
| AsWritten.AddSensorAsWritten | submit/prj1-sol/src/lib/sensors-info.ts:66-85 | as written, agrees with `CatalogSpec.AddSensor` on every non-empty type id |
| AsWritten.AddSensorReadingAsWritten | submit/prj1-sol/src/lib/sensors-info.ts:97-120 | as written (with line 105's undefined `sensor` read as `sensorReading`), agrees with `CatalogSpec.AddSensorReading` on every non-empty sensor id |
| AsWritten.EmptySensorTypeIdAccepted | submit/prj1-sol/src/lib/sensors-info.ts:71-76 | with one type stored, a sensor with an empty type id is accepted as written and breaks the invariant; the corrected step rejects it with BAD_ID |
| AsWritten.StoredEmptySensorTypeIdRejected | submit/prj1-sol/src/lib/sensors-info.ts:71-76 | with two types stored, one under the empty id, a sensor of that type is rejected as written; the corrected step accepts it and keeps the invariant |
| AsWritten.EmptySensorIdAccepted | submit/prj1-sol/src/lib/sensors-info.ts:104-109 | with one sensor stored, a reading with an empty sensor id is accepted as written and breaks the invariant; the corrected step rejects it with BAD_ID |

## Left out

- The validators and `cs544-js-utils` are not part of this model. This covers `makeSensorType`, `makeSensor`, `makeSensorReading`, `validateFindCommand`, `isSubrange` and `Errors`. Their outputs are parameters, and the range check is inclusive containment.
- JavaScript numbers: timestamps, values and periods are unbounded integers. `NaN` and fractional numbers are not modelled. The `-Infinity`/`Infinity` defaults are absent bounds.
- Entities.Stringify: prints every integer in plain decimal digits, while `String(n)` prints integers of 1e21 and above in exponent form (`"1e+21"`). No indexed field or primary key of this core holds a number, so no bucket name depends on it.
- `Number(search[k])` on a request string is the validator's job. The request arrives with its bounds already numeric.
- `StringOrder.Less` compares characters by code point. JavaScript's default sort compares UTF-16 code units, and the two orders differ for characters outside the Basic Multilingual Plane.
- Plain objects used as dictionaries (`objects`, `indexes`, `readings`) are maps. Keys that collide with `Object.prototype` properties (for example `toString`) are not modelled. In JavaScript such keys are truthy on an empty object, so `find` could return a non-record for them.
- `obj[k]` on a record is a per-entity projection over the entity's declared fields. Other properties a record might carry at run time are not modelled.
- The reading list is updated in place in the source (`splice`/`push` on the array reached through `??=`). The model assigns the updated list back to the map. No other holder of that array exists in the core, so aliasing is not modelled.
- Error messages are modelled as plain strings. The minimum and maximum that line 79-80 destructure but never use are left out.
- Info.SensorsInfo.FindSensorTypes: completeness is stated only when every indexed search value is non-empty. With an empty indexed value, `find` narrows to the empty string's bucket while the filter admits every record, so no completeness holds.
- Info.SensorsInfo.FindSensors: completeness is stated only when the sensor type id in the search is non-empty, for the same reason.
- Info.SensorsInfo.FindSensorTypes: the result is related to the stored records, not to the index contents. Stale bucket entries are therefore not observable in its contract.
- `submit/prj2-sol/src/lib/sensors-dao.ts` is not part of this model: it is database I/O.
- The UI files under `submit/prj4-sol` and `submit/prj5-sol` are not part of this model: they are rendering and form plumbing.

## Findings

| source | as written | input that shows it | evidently intended | confidence | as-written member | corrected member |
|---|---|---|---|---|---|---|
| submit/prj1-sol/src/lib/sensors-info.ts:71-76 | the sensor type is looked up with `find({id: sensorTypeId})`, and `find` treats an empty id as no criterion, so it returns every stored type | one stored type `t`; `addSensor` of a sensor with `sensorTypeId: ""` and a range inside `t.limits`: accepted, leaving a sensor whose type is not stored | an empty `sensorTypeId` is looked up like any other id: it fails with BAD_ID unless a type with the empty id is stored | not executed | AsWritten.EmptySensorTypeIdAccepted | CatalogSpec.AddSensorPreservesConsistency |
| submit/prj1-sol/src/lib/sensors-info.ts:71-74 | the same lookup returns every stored type for an empty id, so a type stored under the empty id is not found once a second type is stored | types stored under `""` and `t`; `addSensor` of a sensor with `sensorTypeId: ""` and a range inside the first type's limits: rejected with BAD_ID | the sensor is accepted, since its type is stored | not executed | AsWritten.StoredEmptySensorTypeIdRejected | CatalogSpec.AddSensor |
| submit/prj1-sol/src/lib/sensors-info.ts:104-109 | the sensor is looked up with `find({id: sensorId})`, with the same empty-id behaviour; this holds once line 105's undefined `sensor` is read as `sensorReading`, as line 108 does | one stored sensor; `addSensorReading` of a reading with `sensorId: ""`: accepted and filed under the empty id | an empty `sensorId` is looked up like any other id: it fails with BAD_ID unless a sensor with the empty id is stored | not executed | AsWritten.EmptySensorIdAccepted | CatalogSpec.AddSensorReadingPreservesConsistency |

=== FILE: as_written.dfy ===
/**
 * The reference checks of `addSensor` and `addSensorReading` as the
 * source writes them. Each looks the referenced id up with
 * `find({id})` and accepts when exactly one record comes back. But
 * `find` reads an empty id as "no id given" and then returns every
 * record, so an empty reference id is accepted exactly when one sensor
 * type (or sensor) is stored, whichever id it has, and rejected whenever
 * two or more are stored, even when one of them has the empty id. The
 * model in CatalogSpec and Info looks every reference id up exactly
 * (`Known`); the lemmas here show that the two differ in both
 * directions, and that the written form breaks the catalog's invariant.
 */
module AsWritten {
  import opened Wrappers
  import opened Errors
  import opened Entities
  import opened CatalogSpec

  /**
   * `find({id})` followed by `length === 1`: a non-empty id finds its own
   * record; an empty id finds the only record when there is exactly one.
   */
  ghost function LookupAsWritten<V>(m: map<string, V>, id: string): (r: Option<V>)
    ensures id != "" ==> (r.Some? <==> id in m) && (r.Some? ==> r.value == m[id])
    ensures id == "" ==> (r.Some? <==> |m| == 1)
    ensures r.Some? ==> r.value in m.Values
  {
    if id != "" then Lookup(m, id)
    else if |m| == 1 then
      assert m.Keys != {} by {
        assert |m.Keys| == |m|;
      }
      var k :| k in m;
      Some(m[k])
    else None
  }

  /** `addSensor` with its reference check as written. */
  ghost function AddSensorAsWritten(c: Catalog, v: Result<Sensor>): (s: Step<Sensor>)
    ensures v.Ok? && v.val.sensorTypeId != "" ==> s == AddSensor(c, v)
    ensures v.Err? ==> s == AddSensor(c, v)
  {
    match v
    case Err(e) => Step(c, Err(e))
    case Ok(sensor) =>
      match LookupAsWritten(c.types, sensor.sensorTypeId)
      case None => Step(c, Err([UnknownSensorType(sensor.sensorTypeId)]))
      case Some(sensorType) =>
        if !IsSubrange(sensor.expected, sensorType.limits) then Step(c, Err([ExpectedRangeError]))
        else Step(c.(sensors := c.sensors[sensor.id := sensor]), Ok([sensor]))
  }

  /**
   * `addSensorReading` with its reference check as written, reading the
   * undefined `sensor` in the lookup as the reading itself.
   */
  ghost function AddSensorReadingAsWritten(c: Catalog, v: Result<SensorReading>): (s: Step<SensorReading>)
    ensures v.Ok? && v.val.sensorId != "" ==> s == AddSensorReading(c, v)
    ensures v.Err? ==> s == AddSensorReading(c, v)
  {
    match v
    case Err(e) => Step(c, Err(e))
    case Ok(rd) =>
      if LookupAsWritten(c.sensors, rd.sensorId).None? then Step(c, Err([UnknownSensor(rd.sensorId)]))
      else Step(c.(readings := c.readings[rd.sensorId := Upsert(ReadingsOf(c, rd.sensorId), rd)]), Ok([rd]))
  }

  /**
   * With one sensor type stored, a sensor whose `sensorTypeId` is empty is
   * accepted as written, leaving a sensor whose type is not stored; the
   * corrected step rejects it with BAD_ID.
   */
  lemma EmptySensorTypeIdAccepted()
    ensures var t := SensorType("t", "acme", "m1", "temperature", "C", Range(0, 10));
            var c := Catalog(map["t" := t], map[], map[]);
            var v: Result<Sensor> := Ok(Sensor("s", "", 1, Range(0, 10)));
            && Consistent(c)
            && AddSensorAsWritten(c, v).result == Ok([v.val])
            && !Consistent(AddSensorAsWritten(c, v).next)
            && AddSensor(c, v).result == Err([UnknownSensorType("")])
  {
    var t := SensorType("t", "acme", "m1", "temperature", "C", Range(0, 10));
    var c := Catalog(map["t" := t], map[], map[]);
    var s := Sensor("s", "", 1, Range(0, 10));
    assert |c.types| == 1;
    assert c.types.Values == {t};
    var next := AddSensorAsWritten(c, Ok(s)).next;
    assert next.sensors["s"] == s;
  }

  /**
   * With one sensor stored, a reading whose `sensorId` is empty is
   * accepted as written and filed under the empty id, which names no
   * sensor; the corrected step rejects it with BAD_ID.
   */
  lemma EmptySensorIdAccepted()
    ensures var t := SensorType("t", "acme", "m1", "temperature", "C", Range(0, 10));
            var c := Catalog(map["t" := t], map["s" := Sensor("s", "t", 1, Range(0, 10))], map[]);
            var v: Result<SensorReading> := Ok(SensorReading("", 5, 7));
            && Consistent(c)
            && AddSensorReadingAsWritten(c, v).result == Ok([v.val])
            && !Consistent(AddSensorReadingAsWritten(c, v).next)
            && AddSensorReading(c, v).result == Err([UnknownSensor("")])
  {
    var t := SensorType("t", "acme", "m1", "temperature", "C", Range(0, 10));
    var c := Catalog(map["t" := t], map["s" := Sensor("s", "t", 1, Range(0, 10))], map[]);
    assert |c.sensors| == 1;
    var next := AddSensorReadingAsWritten(c, Ok(SensorReading("", 5, 7))).next;
    assert "" in next.readings;
  }

  /**
   * With two sensor types stored, one of them under the empty id, a sensor
   * of that type is rejected as written, because `find` returns both
   * types; the corrected step accepts it and keeps the catalog consistent.
   */
  lemma StoredEmptySensorTypeIdRejected()
    ensures var t0 := SensorType("", "acme", "m0", "temperature", "C", Range(0, 10));
            var t := SensorType("t", "acme", "m1", "temperature", "C", Range(0, 10));
            var c := Catalog(map["" := t0, "t" := t], map[], map[]);
            var v: Result<Sensor> := Ok(Sensor("s", "", 1, Range(0, 10)));
            && Consistent(c)
            && AddSensorAsWritten(c, v).result == Err([UnknownSensorType("")])
            && AddSensor(c, v).result == Ok([v.val])
            && Consistent(AddSensor(c, v).next)
  {
    var t0 := SensorType("", "acme", "m0", "temperature", "C", Range(0, 10));
    var t := SensorType("t", "acme", "m1", "temperature", "C", Range(0, 10));
    var c := Catalog(map["" := t0, "t" := t], map[], map[]);
    assert c.types.Keys == {"", "t"};
    assert |c.types| == 2;
    AddSensorPreservesConsistency(c, Ok(Sensor("s", "", 1, Range(0, 10))));
  }
}

=== FILE: catalog_spec.dfy ===
/**
 * The catalog as a value: what `SensorsInfo` holds (sensor types and
 * sensors by id, reading lists by sensor id), each update operation as a
 * step function from a catalog and the validator's result to the next
 * catalog and the operation's result, and the fail-fast batch loader.
 * The class in module Info is proved to follow these steps.
 */
module CatalogSpec {
  import opened Wrappers
  import opened Errors
  import opened Entities

  datatype Catalog = Catalog(
    types: map<string, SensorType>,
    sensors: map<string, Sensor>,
    readings: map<string, seq<SensorReading>>)

  const Empty := Catalog(map[], map[], map[])

  /** The outcome of one update: the next catalog and the result returned. */
  datatype Step<T> = Step(next: Catalog, result: Result<seq<T>>)

  /** The outcome of a batch load. */
  datatype Load = Load(next: Catalog, result: Result<()>)

  /**
   * A reference id names a stored record: an exact key lookup, the empty
   * id included (the lookup as written treats the empty id differently;
   * see module AsWritten).
   */
  predicate Known<V>(m: map<string, V>, id: string) {
    id in m
  }

  function UnknownSensorType(id: string): Error {
    Error("unknown sensor type \"" + id + "\"", Some(BAD_ID), Some("sensorTypeId"))
  }

  function UnknownSensor(id: string): Error {
    Error("unknown sensor id \"" + id + "\"", Some(BAD_ID), Some("sensorId"))
  }

  /** The source raises the range-containment error without a code. */
  const ExpectedRangeError := Error("expected range", None, None)

  ghost predicate DistinctTimestamps(list: seq<SensorReading>) {
    forall i, j :: 0 <= i < j < |list| ==> list[i].timestamp != list[j].timestamp
  }

  /**
   * The catalog's invariant: every record stored under its own id, every
   * sensor's type and every reading list's sensor stored, every reading
   * list holding readings of its own sensor at distinct timestamps.
   */
  ghost predicate Consistent(c: Catalog) {
    && (forall id :: id in c.types ==> c.types[id].id == id)
    && (forall id :: id in c.sensors ==> c.sensors[id].id == id && Known(c.types, c.sensors[id].sensorTypeId))
    && (forall sid :: sid in c.readings ==> Known(c.sensors, sid))
    && (forall sid, x :: sid in c.readings && x in c.readings[sid] ==> x.sensorId == sid)
    && (forall sid :: sid in c.readings ==> DistinctTimestamps(c.readings[sid]))
  }

  /** The reading list of a sensor, empty when it has none (`this.readings[id] ?? []`). */
  function ReadingsOf(c: Catalog, sensorId: string): seq<SensorReading> {
    if sensorId in c.readings then c.readings[sensorId] else []
  }

  /** `list.findIndex(r => r.timestamp === ts)`: the first index with that timestamp, or -1. */
  function IndexOfTimestamp(list: seq<SensorReading>, ts: int): (i: int)
    ensures -1 <= i < |list|
    ensures i == -1 <==> forall j :: 0 <= j < |list| ==> list[j].timestamp != ts
    ensures 0 <= i ==> list[i].timestamp == ts && forall j :: 0 <= j < i ==> list[j].timestamp != ts
  {
    if list == [] then -1
    else if list[0].timestamp == ts then 0
    else
      var i := IndexOfTimestamp(list[1..], ts);
      if i < 0 then -1 else i + 1
  }

  /**
   * Replaces the reading with the same timestamp in place, or appends:
   * `rd` ends up in the list, nothing but `rd` is added, and the list
   * grows by one exactly when no reading has `rd`'s timestamp.
   */
  function Upsert(list: seq<SensorReading>, rd: SensorReading): (r: seq<SensorReading>)
    ensures rd in r
    ensures forall x :: x in r ==> x == rd || x in list
    ensures |r| == if forall j :: 0 <= j < |list| ==> list[j].timestamp != rd.timestamp then |list| + 1 else |list|
  {
    var i := IndexOfTimestamp(list, rd.timestamp);
    if i >= 0 then assert list[i := rd][i] == rd; list[i := rd] else list + [rd]
  }

  /**
   * Upsert on a list with distinct timestamps: the reading at the same
   * timestamp is replaced at its own index and the length is kept, or else
   * the reading is appended; afterwards `rd` is the only reading at its
   * timestamp, every other reading is kept, and timestamps stay distinct.
   */
  lemma UpsertProperties(list: seq<SensorReading>, rd: SensorReading)
    requires DistinctTimestamps(list)
    ensures var r := Upsert(list, rd);
      && (forall j :: 0 <= j < |list| && list[j].timestamp == rd.timestamp ==>
            |r| == |list| && r[j] == rd && forall m :: 0 <= m < |list| && m != j ==> r[m] == list[m])
      && ((forall j :: 0 <= j < |list| ==> list[j].timestamp != rd.timestamp) ==> r == list + [rd])
      && rd in r
      && (forall x :: x in r && x.timestamp == rd.timestamp ==> x == rd)
      && (forall x :: x in list && x.timestamp != rd.timestamp ==> x in r)
      && (forall x :: x in r ==> x == rd || x in list)
      && DistinctTimestamps(r)
  {
    var r := Upsert(list, rd);
    forall x | x in list && x.timestamp != rd.timestamp
      ensures x in r
    {
      var m :| 0 <= m < |list| && list[m] == x;
      assert r[m] == x;
    }
  }

  /** `clear`: all three collections emptied; the result is an empty list. */
  function Clear(c: Catalog): (s: Step<string>)
    ensures s.result == Ok([]) && s.next.types == map[] && s.next.sensors == map[] && s.next.readings == map[]
  {
    Step(Empty, Ok([]))
  }

  /** `addSensorType`: upsert by id. */
  function AddSensorType(c: Catalog, v: Result<SensorType>): (s: Step<SensorType>)
    ensures v.Err? ==> s == Step(c, Err(v.errors))
    ensures v.Ok? ==> s.result == Ok([v.val])
    ensures v.Ok? ==> && s.next.types.Keys == c.types.Keys + {v.val.id}
                      && s.next.types[v.val.id] == v.val
                      && (forall id :: id in c.types && id != v.val.id ==> s.next.types[id] == c.types[id])
                      && s.next.sensors == c.sensors && s.next.readings == c.readings
  {
    match v
    case Err(e) => Step(c, Err(e))
    case Ok(t) => Step(c.(types := c.types[t.id := t]), Ok([t]))
  }

  /**
   * `addSensor`: the type must be stored and must contain the sensor's
   * expected range; then upsert by id.
   */
  function AddSensor(c: Catalog, v: Result<Sensor>): (s: Step<Sensor>)
    ensures s.result.Err? ==> s.next == c
    ensures v.Err? ==> s.result == Err(v.errors)
    ensures v.Ok? && !Known(c.types, v.val.sensorTypeId) ==>
              s.result == Err([UnknownSensorType(v.val.sensorTypeId)])
    ensures v.Ok? && Known(c.types, v.val.sensorTypeId)
            && !IsSubrange(v.val.expected, c.types[v.val.sensorTypeId].limits) ==>
              s.result == Err([ExpectedRangeError])
    ensures s.result.Ok? <==>
              (v.Ok? && Known(c.types, v.val.sensorTypeId)
               && IsSubrange(v.val.expected, c.types[v.val.sensorTypeId].limits))
    ensures s.result.Ok? ==> && s.result == Ok([v.val])
                             && s.next.sensors.Keys == c.sensors.Keys + {v.val.id}
                             && s.next.sensors[v.val.id] == v.val
                             && (forall id :: id in c.sensors && id != v.val.id ==> s.next.sensors[id] == c.sensors[id])
                             && s.next.types == c.types && s.next.readings == c.readings
  {
    match v
    case Err(e) => Step(c, Err(e))
    case Ok(sensor) =>
      if !Known(c.types, sensor.sensorTypeId) then Step(c, Err([UnknownSensorType(sensor.sensorTypeId)]))
      else if !IsSubrange(sensor.expected, c.types[sensor.sensorTypeId].limits) then Step(c, Err([ExpectedRangeError]))
      else Step(c.(sensors := c.sensors[sensor.id := sensor]), Ok([sensor]))
  }

  /** `addSensorReading`: the sensor must be stored; then upsert by timestamp in its list. */
  function AddSensorReading(c: Catalog, v: Result<SensorReading>): (s: Step<SensorReading>)
    ensures s.result.Err? ==> s.next == c
    ensures v.Err? ==> s.result == Err(v.errors)
    ensures v.Ok? && !Known(c.sensors, v.val.sensorId) ==> s.result == Err([UnknownSensor(v.val.sensorId)])
    ensures s.result.Ok? <==> v.Ok? && Known(c.sensors, v.val.sensorId)
    ensures s.result.Ok? ==> && s.result == Ok([v.val])
                             && s.next.readings.Keys == c.readings.Keys + {v.val.sensorId}
                             && s.next.readings[v.val.sensorId] == Upsert(ReadingsOf(c, v.val.sensorId), v.val)
                             && (forall sid :: sid in c.readings && sid != v.val.sensorId ==> s.next.readings[sid] == c.readings[sid])
                             && s.next.types == c.types && s.next.sensors == c.sensors
  {
    match v
    case Err(e) => Step(c, Err(e))
    case Ok(rd) =>
      if !Known(c.sensors, rd.sensorId) then Step(c, Err([UnknownSensor(rd.sensorId)]))
      else Step(c.(readings := c.readings[rd.sensorId := Upsert(ReadingsOf(c, rd.sensorId), rd)]), Ok([rd]))
  }

  lemma AddSensorTypePreservesConsistency(c: Catalog, v: Result<SensorType>)
    requires Consistent(c)
    ensures Consistent(AddSensorType(c, v).next)
  {
  }

  lemma AddSensorPreservesConsistency(c: Catalog, v: Result<Sensor>)
    requires Consistent(c)
    ensures Consistent(AddSensor(c, v).next)
  {
  }

  lemma AddSensorReadingPreservesConsistency(c: Catalog, v: Result<SensorReading>)
    requires Consistent(c)
    ensures Consistent(AddSensorReading(c, v).next)
  {
    if v.Ok? && Known(c.sensors, v.val.sensorId) {
      UpsertProperties(ReadingsOf(c, v.val.sensorId), v.val);
    }
  }

  /**
   * Applies `step` to each item in order, stopping at the first failure.
   * An empty batch succeeds and changes nothing; a failure is always an
   * item's failure, whose errors are returned.
   */
  function ApplyAll<T>(c: Catalog, items: seq<Result<T>>, step: (Catalog, Result<T>) -> Step<T>): (l: Load)
    ensures items == [] ==> l == Load(c, Ok(()))
    ensures l.result.Err? ==> items != []
    ensures items != [] && step(c, items[0]).result.Err? ==>
              l == Load(step(c, items[0]).next, Err(step(c, items[0]).result.errors))
    decreases |items|
  {
    if items == [] then Load(c, Ok(()))
    else
      var s := step(c, items[0]);
      if s.result.Err? then Load(s.next, Err(s.result.errors))
      else ApplyAll(s.next, items[1..], step)
  }

  /**
   * `addSensorsInfo`: all sensor types, then all sensors, then all
   * readings. A failing phase ends the load with its own outcome, so no
   * sensor is tried after a failed type and no reading after a failed
   * sensor; once types and sensors succeed, the readings decide the
   * outcome. The load succeeds exactly when all three phases do, and an
   * empty load succeeds and changes nothing.
   */
  function AddSensorsInfo(
    c: Catalog, types: seq<Result<SensorType>>, sensors: seq<Result<Sensor>>, readings: seq<Result<SensorReading>>): (l: Load)
    ensures ApplyAll(c, types, AddSensorType).result.Err? ==> l == ApplyAll(c, types, AddSensorType)
    ensures var l1 := ApplyAll(c, types, AddSensorType);
            l1.result.Ok? && ApplyAll(l1.next, sensors, AddSensor).result.Err? ==>
              l == ApplyAll(l1.next, sensors, AddSensor)
    ensures var l1 := ApplyAll(c, types, AddSensorType);
            var l2 := ApplyAll(l1.next, sensors, AddSensor);
            l1.result.Ok? && l2.result.Ok? ==> l == ApplyAll(l2.next, readings, AddSensorReading)
    ensures var l1 := ApplyAll(c, types, AddSensorType);
            var l2 := ApplyAll(l1.next, sensors, AddSensor);
            l.result.Ok? <==>
              l1.result.Ok? && l2.result.Ok? && ApplyAll(l2.next, readings, AddSensorReading).result.Ok?
    ensures types == [] && sensors == [] && readings == [] ==> l == Load(c, Ok(()))
  {
    var l1 := ApplyAll(c, types, AddSensorType);
    if l1.result.Err? then l1
    else
      var l2 := ApplyAll(l1.next, sensors, AddSensor);
      if l2.result.Err? then l2
      else ApplyAll(l2.next, readings, AddSensorReading)
  }

  /** One more item after a successful prefix: its step decides the outcome. */
  lemma {:induction false} ApplyAllSnoc<T>(
    c: Catalog, items: seq<Result<T>>, x: Result<T>, step: (Catalog, Result<T>) -> Step<T>)
    requires ApplyAll(c, items, step).result.Ok?
    ensures var s := step(ApplyAll(c, items, step).next, x);
            ApplyAll(c, items + [x], step) ==
              if s.result.Err? then Load(s.next, Err(s.result.errors)) else Load(s.next, Ok(()))
    decreases |items|
  {
    if items != [] {
      assert (items + [x])[1..] == items[1..] + [x];
      ApplyAllSnoc(step(c, items[0]).next, items[1..], x, step);
    }
  }

  /** After the first failure nothing further is applied. */
  lemma {:induction false} ApplyAllStopsAtFailure<T>(
    c: Catalog, items: seq<Result<T>>, rest: seq<Result<T>>, step: (Catalog, Result<T>) -> Step<T>)
    requires ApplyAll(c, items, step).result.Err?
    ensures ApplyAll(c, items + rest, step) == ApplyAll(c, items, step)
    decreases |items|
  {
    assert items != [];
    assert (items + rest)[0] == items[0];
    if step(c, items[0]).result.Ok? {
      assert (items + rest)[1..] == items[1..] + rest;
      ApplyAllStopsAtFailure(step(c, items[0]).next, items[1..], rest, step);
    }
  }

  /**
   * A failed batch ends at its first failing item: every item before it
   * succeeded and stays applied, and the failure's errors are returned.
   */
  lemma {:induction false} FirstFailure<T>(c: Catalog, items: seq<Result<T>>, step: (Catalog, Result<T>) -> Step<T>)
    requires ApplyAll(c, items, step).result.Err?
    ensures exists i :: 0 <= i < |items| && ApplyAll(c, items[..i], step).result.Ok?
              && var s := step(ApplyAll(c, items[..i], step).next, items[i]);
                 s.result.Err? && ApplyAll(c, items, step) == Load(s.next, Err(s.result.errors))
    decreases |items|
  {
    var s0 := step(c, items[0]);
    if s0.result.Err? {
      assert items[..0] == [];
    } else {
      FirstFailure(s0.next, items[1..], step);
      var i :| 0 <= i < |items[1..]| && ApplyAll(s0.next, items[1..][..i], step).result.Ok?
              && var s := step(ApplyAll(s0.next, items[1..][..i], step).next, items[1..][i]);
                 s.result.Err? && ApplyAll(s0.next, items[1..], step) == Load(s.next, Err(s.result.errors));
      assert items[..i + 1][1..] == items[1..][..i];
      assert items[..i + 1][0] == items[0];
    }
  }

  /** A step kind that keeps the catalog consistent keeps it so over a batch. */
  lemma {:induction false} ApplyAllPreservesConsistency<T>(
    c: Catalog, items: seq<Result<T>>, step: (Catalog, Result<T>) -> Step<T>)
    requires Consistent(c)
    requires forall m, x :: Consistent(m) ==> Consistent(step(m, x).next)
    ensures Consistent(ApplyAll(c, items, step).next)
    decreases |items|
  {
    if items != [] {
      var s := step(c, items[0]);
      if s.result.Ok? {
        ApplyAllPreservesConsistency(s.next, items[1..], step);
      }
    }
  }

  lemma AddSensorsInfoPreservesConsistency(
    c: Catalog, types: seq<Result<SensorType>>, sensors: seq<Result<Sensor>>, readings: seq<Result<SensorReading>>)
    requires Consistent(c)
    ensures Consistent(AddSensorsInfo(c, types, sensors, readings).next)
  {
    forall m, x | Consistent(m) ensures Consistent(AddSensorType(m, x).next) {
      AddSensorTypePreservesConsistency(m, x);
    }
    forall m, x | Consistent(m) ensures Consistent(AddSensor(m, x).next) {
      AddSensorPreservesConsistency(m, x);
    }
    forall m, x | Consistent(m) ensures Consistent(AddSensorReading(m, x).next) {
      AddSensorReadingPreservesConsistency(m, x);
    }
    var l1 := ApplyAll(c, types, AddSensorType);
    ApplyAllPreservesConsistency(c, types, AddSensorType);
    if l1.result.Ok? {
      var l2 := ApplyAll(l1.next, sensors, AddSensor);
      ApplyAllPreservesConsistency(l1.next, sensors, AddSensor);
      if l2.result.Ok? {
        ApplyAllPreservesConsistency(l2.next, readings, AddSensorReading);
      }
    }
  }
}

=== FILE: collection.dfy ===
/**
 * `IndexedCollection<T>`: a keyed store with one primary key and a set of
 * secondary-key indexes, and the `intersection` helper its search uses.
 *
 * Two slips in the source text are modelled as evidently intended:
 * the constructor initialises `indexes` (the source assigns a misspelt
 * field `indexed`, leaving `indexes` undefined), and `add` creates a
 * secondary bucket on demand (the source calls `.add` on a bucket that
 * may not exist yet).
 *
 * Index staleness is reproduced: `add` never removes a replaced record's
 * id from the buckets of its old field values. Buckets therefore hold a
 * superset of the ids whose current value matches; `Valid` keeps every
 * bucket inside the live ids and every live record in its current bucket.
 */
module Collection {
  import opened Wrappers
  import opened Entities
  import opened StringOrder
  import opened Filters

  /** The elements present in both sets, whichever of them is iterated. */
  function Intersection<T(==,!new)>(set1: set<T>, set2: set<T>): (r: set<T>)
    ensures forall e :: e in r <==> e in set1 && e in set2
  {
    var (iterSet, argSet) := if |set1| < |set2| then (set1, set2) else (set2, set1);
    set e | e in iterSet && e in argSet
  }

  /** `index[v] ?? new Set()`: the bucket of `v`, empty when there is none. */
  function Bucket(index: map<string, set<string>>, v: string): set<string> {
    if v in index then index[v] else {}
  }

  class IndexedCollection<T(!new)> {
    const primaryKey: string
    /** `obj[k]` for the stored type. */
    const fieldOf: (T, string) -> Option<Value>
    var objects: map<string, T>
    var indexes: map<string, map<string, set<string>>>
    /** The secondary keys the collection was built with: the names of its indexes. */
    ghost const indexKeys: set<string>

    /** The bucket name of `obj` in the index of `k` (`String(obj[k])`). */
    function KeyOf(obj: T, k: string): string {
      Stringify(fieldOf(obj, k))
    }

    /** The id under which `obj` is stored (`obj[primaryKey]` used as a property name). */
    function IdOf(obj: T): string {
      KeyOf(obj, primaryKey)
    }

    ghost predicate Valid()
      reads this
    {
      indexes.Keys == indexKeys && ValidState(objects, indexes)
    }

    /**
     * Every record is stored under its own id, every bucket holds live ids
     * only, and every live record is in its current bucket of every index.
     */
    ghost predicate ValidState(objs: map<string, T>, ix: map<string, map<string, set<string>>>) {
      && (forall id :: id in objs ==> IdOf(objs[id]) == id)
      && (forall k, v :: k in ix && v in ix[k] ==> ix[k][v] <= objs.Keys)
      && (forall id, k :: id in objs && k in ix ==> id in Bucket(ix[k], KeyOf(objs[id], k)))
    }

    /** The indexes after `obj` is added: its id joins its bucket in every index; nothing leaves. */
    ghost function WithIndexed(ix: map<string, map<string, set<string>>>, obj: T): map<string, map<string, set<string>>> {
      map k | k in ix :: ix[k][KeyOf(obj, k) := Bucket(ix[k], KeyOf(obj, k)) + {IdOf(obj)}]
    }

    constructor (primaryKey: string, secondaryKeys: seq<string>, fieldOf: (T, string) -> Option<Value>)
      ensures Valid()
      ensures this.primaryKey == primaryKey && this.fieldOf == fieldOf
      ensures indexKeys == set k | k in secondaryKeys
      ensures objects == map[]
      ensures indexes == map k | k in secondaryKeys :: map[]
    {
      this.primaryKey := primaryKey;
      this.fieldOf := fieldOf;
      indexKeys := set k | k in secondaryKeys;
      objects := map[];
      var ix: map<string, map<string, set<string>>> := map[];
      for i := 0 to |secondaryKeys|
        invariant ix == map k | k in secondaryKeys[..i] :: map[]
      {
        assert secondaryKeys[..i + 1] == secondaryKeys[..i] + [secondaryKeys[i]];
        ix := ix[secondaryKeys[i] := map[]];
      }
      assert secondaryKeys[..|secondaryKeys|] == secondaryKeys;
      indexes := ix;
    }

    /** Empties the store; every index is kept, with no buckets. */
    method Clear()
      requires Valid()
      modifies this
      ensures Valid()
      ensures objects == map[]
      ensures indexes == map k | k in old(indexes) :: map[]
    {
      objects := map[];
      var keys := indexes.Keys;
      while keys != {}
        invariant objects == map[]
        invariant keys <= indexes.Keys == old(indexes).Keys
        invariant forall k :: k in indexes && k !in keys ==> indexes[k] == map[]
        decreases keys
      {
        var k :| k in keys;
        indexes := indexes[k := map[]];
        keys := keys - {k};
      }
      assert indexes == map k | k in old(indexes) :: map[];
    }

    /**
     * Inserts `obj`, replacing the record with the same id, and adds its id
     * to its current bucket in every index. Old bucket memberships stay.
     */
    method Add(obj: T)
      requires Valid()
      modifies this
      ensures Valid()
      ensures objects == old(objects)[IdOf(obj) := obj]
      ensures indexes == WithIndexed(old(indexes), obj)
    {
      var id := IdOf(obj);
      WithIndexedValid(objects, indexes, obj);
      var ix := indexes;
      var keys := ix.Keys;
      while keys != {}
        invariant keys <= ix.Keys == indexes.Keys
        invariant forall k :: k in ix ==>
                    ix[k] == if k in keys then indexes[k] else WithIndexed(indexes, obj)[k]
        decreases keys
      {
        var k :| k in keys;
        var v := KeyOf(obj, k);
        var index := ix[k];
        ix := ix[k := index[v := Bucket(index, v) + {id}]];
        keys := keys - {k};
      }
      assert ix == WithIndexed(indexes, obj);
      objects, indexes := objects[id := obj], ix;
    }

    /**
     * Adding never removes an id from a bucket: a replaced record's id stays
     * in the buckets of its old field values.
     */
    lemma WithIndexedKeepsBuckets(ix: map<string, map<string, set<string>>>, obj: T)
      ensures WithIndexed(ix, obj).Keys == ix.Keys
      ensures forall k, v :: k in ix && v in ix[k] ==> v in WithIndexed(ix, obj)[k] && ix[k][v] <= WithIndexed(ix, obj)[k][v]
      ensures forall k :: k in ix ==> IdOf(obj) in Bucket(WithIndexed(ix, obj)[k], KeyOf(obj, k))
    {
    }

    lemma WithIndexedValid(objs: map<string, T>, ix: map<string, map<string, set<string>>>, obj: T)
      requires ValidState(objs, ix)
      ensures ValidState(objs[IdOf(obj) := obj], WithIndexed(ix, obj))
    {
      var objs', ix' := objs[IdOf(obj) := obj], WithIndexed(ix, obj);
      forall id, k | id in objs' && k in ix'
        ensures id in Bucket(ix'[k], KeyOf(objs'[id], k))
      {
        if id != IdOf(obj) {
          assert id in Bucket(ix[k], KeyOf(objs[id], k));
        }
      }
    }

    /** `search[primaryKey] ?? ''`. */
    function SearchId(search: map<string, string>): string {
      if primaryKey in search then search[primaryKey] else ""
    }

    /**
     * The ids `find` keeps after narrowing by the primary key and by the
     * indexes of the secondary keys in `keys`.
     */
    ghost function Candidates(search: map<string, string>, keys: set<string>): set<string>
      reads this
    {
      set id | id in objects.Keys
        && (SearchId(search) == "" || id == SearchId(search))
        && (forall k :: k in keys && k in search && k in indexes ==> id in Bucket(indexes[k], search[k]))
    }

    /** The ids `find` returns: narrowed by every non-primary search pair. */
    ghost function Matches(search: map<string, string>): set<string>
      reads this
    {
      Candidates(search, search.Keys - {primaryKey})
    }

    /**
     * The stored records whose id survives the narrowing, each once, in
     * strictly ascending id order.
     */
    method Find(search: map<string, string>) returns (r: seq<T>)
      requires Valid()
      ensures forall i, j :: 0 <= i < j < |r| ==> Less(IdOf(r[i]), IdOf(r[j]))
      ensures forall x :: x in r ==> IdOf(x) in Matches(search) && objects[IdOf(x)] == x
      ensures forall id :: id in Matches(search) ==> objects[id] in r
    {
      var ids := Narrow(search);
      var sorted := SortIds(ids);
      r := RecordsOf(sorted, ids);
    }

    /** The narrowing loop of `find`: the ids left after every search pair. */
    method Narrow(search: map<string, string>) returns (ids: set<string>)
      ensures ids == Matches(search)
    {
      var searchId := SearchId(search);
      ids := if |searchId| > 0 then (if searchId in objects then {searchId} else {}) else objects.Keys;
      var pairs := search.Keys - {primaryKey};
      ghost var done: set<string> := {};
      assert ids == Candidates(search, done);
      while pairs != {}
        invariant pairs <= search.Keys - {primaryKey}
        invariant done == search.Keys - {primaryKey} - pairs
        invariant ids == Candidates(search, done)
        decreases pairs
      {
        var k :| k in pairs;
        NarrowStep(search, done, k);
        if k in indexes {
          ids := Intersection(ids, Bucket(indexes[k], search[k]));
        }
        pairs := pairs - {k};
        done := done + {k};
      }
    }

    /** One loop step of `find`: narrowing by one more key intersects with its bucket. */
    lemma NarrowStep(search: map<string, string>, done: set<string>, k: string)
      requires k in search
      ensures Candidates(search, done + {k}) ==
                if k in indexes then Candidates(search, done) * Bucket(indexes[k], search[k])
                else Candidates(search, done)
    {
    }

    /** `sorted.map(id => this.objects[id])`, for ids that are all live. */
    function RecordsOf(sorted: seq<string>, ghost ids: set<string>): (r: seq<T>)
      reads this
      requires Valid() && ids <= objects.Keys
      requires StrictlyAscending(sorted) && forall x :: x in sorted <==> x in ids
      ensures forall i, j :: 0 <= i < j < |r| ==> Less(IdOf(r[i]), IdOf(r[j]))
      ensures forall x :: x in r ==> IdOf(x) in ids && objects[IdOf(x)] == x
      ensures forall id :: id in ids ==> objects[id] in r
    {
      assert forall i :: 0 <= i < |sorted| ==> sorted[i] in ids;
      var objs := objects;
      var r := seq(|sorted|, i requires 0 <= i < |sorted| => objs[sorted[i]]);
      assert forall i :: 0 <= i < |r| ==> IdOf(r[i]) == sorted[i] && r[i] == objects[sorted[i]];
      assert forall id :: id in ids ==> objects[id] in r by {
        forall id | id in ids
          ensures objects[id] in r
        {
          var i :| 0 <= i < |sorted| && sorted[i] == id;
          assert r[i] == objects[id];
        }
      }
      r
    }

    /**
     * A search by a non-empty id alone finds the record with that id, or
     * nothing: `find` returns exactly one record iff the id is stored.
     */
    lemma FindById(id: string, r: seq<T>)
      requires Valid() && id != ""
      requires forall i, j :: 0 <= i < j < |r| ==> Less(IdOf(r[i]), IdOf(r[j]))
      requires forall x :: x in r ==> IdOf(x) in Matches(map[primaryKey := id]) && objects[IdOf(x)] == x
      requires forall k :: k in Matches(map[primaryKey := id]) ==> objects[k] in r
      ensures |r| == 1 <==> id in objects
      ensures |r| == 1 ==> r[0] == objects[id]
    {
      var search := map[primaryKey := id];
      assert SearchId(search) == id;
      if |r| >= 2 {
        assert r[0] in r && r[1] in r;
        LessIrreflexive(id);
      }
      if id in objects {
        assert id in Matches(search);
      }
    }

    /**
     * A search that names no field but the primary key, and that with an
     * empty value, is no search at all: `find` returns every stored record.
     */
    lemma FindWithoutCriteria(search: map<string, string>, r: seq<T>)
      requires Valid()
      requires forall k :: k in search ==> k == primaryKey && search[k] == ""
      requires forall x :: x in r ==> IdOf(x) in Matches(search) && objects[IdOf(x)] == x
      requires forall id :: id in Matches(search) ==> objects[id] in r
      ensures forall id :: id in objects ==> objects[id] in r
      ensures forall x :: x in r ==> x in objects.Values
    {
      assert SearchId(search) == "";
      assert search.Keys - {primaryKey} == {};
      forall id | id in objects
        ensures objects[id] in r
      {
        assert id in Matches(search);
      }
    }

    /**
     * A search naming an indexed field whose value has no bucket finds
     * nothing.
     */
    lemma FindMissingBucket(search: map<string, string>, k: string, r: seq<T>)
      requires k in search && k != primaryKey && k in indexes && search[k] !in indexes[k]
      requires forall x :: x in r ==> IdOf(x) in Matches(search) && objects[IdOf(x)] == x
      ensures Matches(search) == {}
      ensures forall x :: x !in r
    {
      assert Bucket(indexes[k], search[k]) == {};
    }

    /**
     * Index narrowing loses no record the residual filter would keep, as
     * long as every indexed search value is non-empty and the record's
     * primary and indexed fields are strings.
     */
    lemma MatchesComplete(search: map<string, string>, id: string)
      requires Valid()
      requires id in objects
      requires Selects(fieldOf, search, objects[id])
      requires forall k :: k in search && k in indexes ==> search[k] != ""
      requires forall k :: (k == primaryKey || k in indexes) ==>
                 fieldOf(objects[id], k).Some? && fieldOf(objects[id], k).value.Str?
      ensures id in Matches(search)
    {
      var obj := objects[id];
      if SearchId(search) != "" {
        assert Check(fieldOf, obj, primaryKey, search[primaryKey]);
      }
      forall k | k in search.Keys - {primaryKey} && k in search && k in indexes
        ensures id in Bucket(indexes[k], search[k])
      {
        assert Check(fieldOf, obj, k, search[k]);
        assert KeyOf(obj, k) == search[k];
      }
    }
  }
}

=== FILE: entities.dfy ===
/**
 * The three catalog entities, in the typed form the validators produce,
 * and the by-name field access that the generic collection and the
 * residual filter use (`obj[k]` in the source).
 */
module Entities {
  import opened Wrappers

  /** An inclusive numeric range `{min, max}`. */
  datatype Range = Range(min: int, max: int)

  datatype SensorType = SensorType(
    id: string, manufacturer: string, modelNumber: string,
    quantity: string, unit: string, limits: Range)

  datatype Sensor = Sensor(id: string, sensorTypeId: string, period: int, expected: Range)

  datatype SensorReading = SensorReading(sensorId: string, timestamp: int, value: int)

  /** Inclusive containment of `inner` in `outer` (the validators' `isSubrange`). */
  predicate IsSubrange(inner: Range, outer: Range) {
    outer.min <= inner.min && inner.max <= outer.max
  }

  /** A field value as JavaScript sees it: a string, a number or a nested object. */
  datatype Value = Str(s: string) | Num(n: int) | Rec(r: Range)

  predicate IsDigit(ch: char) {
    '0' <= ch <= '9'
  }

  /**
   * Decimal digits of a natural number, as `String(n)` prints it: only
   * digits, and no leading zero unless the number is zero.
   */
  function NatToString(n: nat): (s: string)
    ensures |s| > 0
    ensures forall i :: 0 <= i < |s| ==> IsDigit(s[i])
    ensures |s| > 1 ==> s[0] != '0'
    decreases n
  {
    if n < 10 then ["0123456789"[n]] else NatToString(n / 10) + ["0123456789"[n % 10]]
  }

  /** The number a string of decimal digits denotes, most significant digit first. */
  function DigitsValue(s: string): nat
    requires forall i :: 0 <= i < |s| ==> IsDigit(s[i])
    decreases |s|
  {
    if s == [] then 0
    else
      assert IsDigit(s[|s| - 1]);
      DigitsValue(s[..|s| - 1]) * 10 + (s[|s| - 1] as int - '0' as int)
  }

  /** Reading the printed digits back gives the number again. */
  lemma {:induction false} NatToStringRoundTrip(n: nat)
    ensures DigitsValue(NatToString(n)) == n
    decreases n
  {
    var s := NatToString(n);
    if n >= 10 {
      NatToStringRoundTrip(n / 10);
      assert s[..|s| - 1] == NatToString(n / 10);
    }
  }

  /**
   * `String(obj[k])`: the string under which a field value is indexed.
   * An absent field prints as "undefined", a nested object as "[object Object]".
   */
  function Stringify(v: Option<Value>): (s: string)
    ensures v.Some? && v.value.Str? ==> s == v.value.s
    ensures v.None? ==> s == "undefined"
    ensures v.Some? && v.value.Num? && v.value.n >= 0 ==> s == NatToString(v.value.n)
    ensures v.Some? && v.value.Num? && v.value.n < 0 ==> s == "-" + NatToString(-v.value.n)
    ensures v.Some? && v.value.Num? ==> |s| > 0 && (s[0] == '-' <==> v.value.n < 0)
    ensures v.Some? && v.value.Num? && v.value.n >= 0 ==>
              (forall i :: 0 <= i < |s| ==> IsDigit(s[i])) && DigitsValue(s) == v.value.n
  {
    match v
    case None => "undefined"
    case Some(Str(s)) => s
    case Some(Num(n)) => if n < 0 then "-" + NatToString(-n) else NatToStringRoundTrip(n); NatToString(n)
    case Some(Rec(_)) => "[object Object]"
  }

  /** The secondary keys sensor types are indexed by. */
  const TypeIndexKeys: set<string> := {"manufacturer", "modelNumber", "quantity"}

  /** The secondary key sensors are indexed by. */
  const SensorIndexKeys: set<string> := {"sensorTypeId"}

  /** `t[k]` for a sensor type: its primitive fields and its `limits` object. */
  function SensorTypeField(t: SensorType, k: string): (v: Option<Value>)
    ensures k == "id" || k == "unit" || k in TypeIndexKeys ==> v.Some? && v.value.Str?
  {
    if k == "id" then Some(Str(t.id))
    else if k == "manufacturer" then Some(Str(t.manufacturer))
    else if k == "modelNumber" then Some(Str(t.modelNumber))
    else if k == "quantity" then Some(Str(t.quantity))
    else if k == "unit" then Some(Str(t.unit))
    else if k == "limits" then Some(Rec(t.limits))
    else None
  }

  /** `s[k]` for a sensor: `period` is a number, `expected` an object. */
  function SensorField(s: Sensor, k: string): (v: Option<Value>)
    ensures k == "id" || k in SensorIndexKeys ==> v.Some? && v.value.Str?
  {
    if k == "id" then Some(Str(s.id))
    else if k == "sensorTypeId" then Some(Str(s.sensorTypeId))
    else if k == "period" then Some(Num(s.period))
    else if k == "expected" then Some(Rec(s.expected))
    else None
  }
}

=== FILE: errors.dfy ===
/**
 * The tagged result every catalog operation returns: either `Ok(val)` or
 * `Err(errors)`, each error carrying a message, an optional code and an
 * optional field name.
 */
module Errors {
  import opened Wrappers

  /** The error codes the catalog core produces or passes through. */
  datatype ErrorCode = REQUIRED | BAD_VAL | BAD_RANGE | BAD_ID

  datatype Error = Error(message: string, code: Option<ErrorCode>, field: Option<string>)

  datatype Result<T> = Ok(val: T) | Err(errors: seq<Error>)
}

=== FILE: filters.dfy ===
/**
 * The residual exact-match filter applied after an index lookup
 * (`filter` in the source): an object is kept when every search pair
 * `(k, v)` has an empty `v`, or `obj[k]` undefined, or `obj[k] === v`.
 * Strict equality never holds between a search string and a numeric or
 * object field.
 */
module Filters {
  import opened Wrappers
  import opened Entities

  /**
   * One search pair admits `obj`. An empty value admits everything, and a
   * non-empty value never admits a numeric or object field.
   */
  predicate Check<T>(fieldOf: (T, string) -> Option<Value>, obj: T, k: string, v: string)
    ensures |v| == 0 ==> Check(fieldOf, obj, k, v)
    ensures |v| > 0 && fieldOf(obj, k).Some? && !fieldOf(obj, k).value.Str? ==> !Check(fieldOf, obj, k, v)
  {
    |v| == 0 || fieldOf(obj, k).None? || fieldOf(obj, k) == Some(Str(v))
  }

  /**
   * Every search pair admits `obj`: the empty search selects everything,
   * and a selected object carries exactly the searched string in every
   * field it has that the search names with a non-empty value.
   */
  predicate Selects<T>(fieldOf: (T, string) -> Option<Value>, search: map<string, string>, obj: T)
    ensures search == map[] ==> Selects(fieldOf, search, obj)
    ensures Selects(fieldOf, search, obj) ==>
              forall k :: k in search && |search[k]| > 0 && fieldOf(obj, k).Some? ==> fieldOf(obj, k) == Some(Str(search[k]))
  {
    forall k | k in search :: Check(fieldOf, obj, k, search[k])
  }

  /** `list.filter(select)`. */
  function Filter<T(!new)>(fieldOf: (T, string) -> Option<Value>, search: map<string, string>, list: seq<T>): (r: seq<T>)
    ensures |r| <= |list|
    ensures forall x :: x in r <==> x in list && Selects(fieldOf, search, x)
  {
    if list == [] then []
    else (if Selects(fieldOf, search, list[0]) then [list[0]] else []) + Filter(fieldOf, search, list[1..])
  }

  /** Filtering keeps the input order: any order the input respects, the output respects. */
  lemma {:induction false} FilterKeepsOrder<T(!new)>(
    fieldOf: (T, string) -> Option<Value>, search: map<string, string>, list: seq<T>, before: (T, T) -> bool)
    requires forall i, j :: 0 <= i < j < |list| ==> before(list[i], list[j])
    ensures forall i, j :: 0 <= i < j < |Filter(fieldOf, search, list)| ==>
              before(Filter(fieldOf, search, list)[i], Filter(fieldOf, search, list)[j])
  {
    if list != [] {
      var tail := Filter(fieldOf, search, list[1..]);
      FilterKeepsOrder(fieldOf, search, list[1..], before);
      assert forall i, j :: 0 <= i < j < |tail| ==> before(tail[i], tail[j]);
      forall y | y in tail
        ensures before(list[0], y)
      {
        var j :| 0 <= j < |list[1..]| && list[1..][j] == y;
        assert list[j + 1] == y;
      }
      var r := Filter(fieldOf, search, list);
      if Selects(fieldOf, search, list[0]) {
        assert r == [list[0]] + tail;
        forall i, j | 0 <= i < j < |r|
          ensures before(r[i], r[j])
        {
          if i > 0 {
            assert r[i] == tail[i - 1] && r[j] == tail[j - 1];
          } else {
            assert r[j] in tail;
          }
        }
      } else {
        assert r == tail;
      }
    }
  }
}

=== FILE: reading_search.dfy ===
/**
 * The reading search: the validated request, its conversion into four
 * optional inclusive bounds (`makeSensorReadingsSearch`), the bounds test,
 * and the numeric sort by timestamp applied to the result.
 *
 * An absent bound stands for the source's `-Infinity` / `Infinity`
 * default: it admits every value.
 */
module ReadingSearch {
  import opened Wrappers
  import opened Entities

  /**
   * A validated `findSensorReadings` request: the sensor id and, for each
   * bound field present in the request, its numeric value.
   */
  datatype FindReadingsRequest = FindReadingsRequest(sensorId: string, bounds: map<string, int>)

  datatype SensorReadingSearch = SensorReadingSearch(
    sensorId: string,
    minTimestamp: Option<int>, maxTimestamp: Option<int>,
    minValue: Option<int>, maxValue: Option<int>)

  /** The bound fields, in the order the conversion visits them. */
  const BoundKeys: seq<string> := ["minTimestamp", "maxTimestamp", "minValue", "maxValue"]

  /** `search1[k]` for a bound field name. */
  function BoundOf(s: SensorReadingSearch, k: string): Option<int> {
    if k == "minTimestamp" then s.minTimestamp
    else if k == "maxTimestamp" then s.maxTimestamp
    else if k == "minValue" then s.minValue
    else if k == "maxValue" then s.maxValue
    else None
  }

  /** `search1[k] = n` for a bound field name; other fields unchanged. */
  function WithBound(s: SensorReadingSearch, k: string, n: int): (r: SensorReadingSearch)
    ensures r.sensorId == s.sensorId
    ensures forall k' :: k' in BoundKeys ==> BoundOf(r, k') == if k' == k then Some(n) else BoundOf(s, k')
  {
    if k == "minTimestamp" then s.(minTimestamp := Some(n))
    else if k == "maxTimestamp" then s.(maxTimestamp := Some(n))
    else if k == "minValue" then s.(minValue := Some(n))
    else if k == "maxValue" then s.(maxValue := Some(n))
    else s
  }

  /** The search a request denotes: each bound present in the request, the others open. */
  ghost function SearchOf(req: FindReadingsRequest): SensorReadingSearch {
    SensorReadingSearch(
      req.sensorId,
      Lookup(req.bounds, "minTimestamp"), Lookup(req.bounds, "maxTimestamp"),
      Lookup(req.bounds, "minValue"), Lookup(req.bounds, "maxValue"))
  }

  /** Starts from open bounds and copies in each bound field the request holds. */
  method MakeSensorReadingsSearch(search: FindReadingsRequest) returns (s: SensorReadingSearch)
    ensures s == SearchOf(search)
  {
    s := SensorReadingSearch(search.sensorId, None, None, None, None);
    for i := 0 to |BoundKeys|
      invariant s.sensorId == search.sensorId
      invariant forall j :: 0 <= j < |BoundKeys| ==>
                  BoundOf(s, BoundKeys[j]) == if j < i then Lookup(search.bounds, BoundKeys[j]) else None
    {
      var k := BoundKeys[i];
      if k in search.bounds {
        s := WithBound(s, k, search.bounds[k]);
      }
    }
    assert BoundOf(s, BoundKeys[0]) == s.minTimestamp;
    assert BoundOf(s, BoundKeys[1]) == s.maxTimestamp;
    assert BoundOf(s, BoundKeys[2]) == s.minValue;
    assert BoundOf(s, BoundKeys[3]) == s.maxValue;
  }

  predicate AtLeast(lo: Option<int>, x: int) { lo.None? || lo.value <= x }
  predicate AtMost(hi: Option<int>, x: int) { hi.None? || x <= hi.value }

  /** `minTimestamp <= timestamp <= maxTimestamp && minValue <= value <= maxValue`. */
  predicate InBounds(s: SensorReadingSearch, r: SensorReading) {
    AtLeast(s.minTimestamp, r.timestamp) && AtMost(s.maxTimestamp, r.timestamp)
    && AtLeast(s.minValue, r.value) && AtMost(s.maxValue, r.value)
  }

  /** The readings of `list` within the bounds, in list order. */
  function Within(list: seq<SensorReading>, s: SensorReadingSearch): (r: seq<SensorReading>)
    ensures forall x :: x in r <==> x in list && InBounds(s, x)
    ensures |r| <= |list|
  {
    if list == [] then []
    else
      var last := list[|list| - 1];
      Within(list[..|list| - 1], s) + (if InBounds(s, last) then [last] else [])
  }

  /** Sorted by timestamp, ascending. */
  ghost predicate AscendingByTimestamp(s: seq<SensorReading>) {
    forall i, j :: 0 <= i < j < |s| ==> s[i].timestamp <= s[j].timestamp
  }

  /** Inserts `x` before the first reading with a larger timestamp. */
  function InsertByTimestamp(x: SensorReading, s: seq<SensorReading>): (r: seq<SensorReading>)
    requires AscendingByTimestamp(s)
    ensures AscendingByTimestamp(r)
    ensures multiset(r) == multiset(s) + multiset{x}
  {
    if s == [] || x.timestamp <= s[0].timestamp then [x] + s
    else
      var rest := InsertByTimestamp(x, s[1..]);
      assert s == [s[0]] + s[1..];
      HeadBelowInserted(x, s, rest);
      [s[0]] + rest
  }

  lemma HeadBelowInserted(x: SensorReading, s: seq<SensorReading>, rest: seq<SensorReading>)
    requires AscendingByTimestamp(s) && s != [] && s[0].timestamp < x.timestamp
    requires multiset(rest) == multiset(s[1..]) + multiset{x}
    ensures forall y :: y in rest ==> s[0].timestamp <= y.timestamp
  {
    forall y | y in rest
      ensures s[0].timestamp <= y.timestamp
    {
      assert y in multiset(rest);
      if y != x {
        assert y in multiset(s[1..]);
        assert y in s[1..];
      }
    }
  }

  /** `found.sort((r1, r2) => r1.timestamp - r2.timestamp)`. */
  function SortByTimestamp(s: seq<SensorReading>): (r: seq<SensorReading>)
    ensures AscendingByTimestamp(r)
    ensures multiset(r) == multiset(s)
  {
    if s == [] then []
    else
      assert s == [s[0]] + s[1..];
      InsertByTimestamp(s[0], SortByTimestamp(s[1..]))
  }
}

=== FILE: sensors_info.dfy ===
/**
 * `SensorsInfo`: the in-memory catalog. It owns two indexed collections
 * (sensor types, indexed by manufacturer, model number and quantity;
 * sensors, indexed by sensor type id) and a map from sensor id to that
 * sensor's list of readings. Every update is proved to perform the
 * corresponding step of module CatalogSpec on the abstract catalog.
 *
 * The validators are outside the model: each operation receives the
 * validator's result for its request, and passes a failure on unchanged.
 *
 * Slips in the source text modelled as evidently intended: the reading's
 * own `sensorId` is looked up (the source names an undefined `sensor`);
 * both BAD_ID errors are built with `Errors.errResult` (the source writes
 * `Error.errResult`), the reading's one tagged with field "sensorId" (the
 * source writes "sensorTypeId"); the find operations return the filtered
 * list itself (the source wraps it in a further array).
 */
module Info {
  import opened Wrappers
  import opened Errors
  import opened Entities
  import opened StringOrder
  import opened Filters
  import opened Collection
  import opened ReadingSearch
  import opened CatalogSpec

  /** Every indexed field that the search names has a non-empty value. */
  predicate IndexedValuesNonEmpty(search: map<string, string>, indexed: set<string>) {
    forall k | k in search && k in indexed :: search[k] != ""
  }

  class SensorsInfo {
    const sensorTypes: IndexedCollection<SensorType>
    const sensors: IndexedCollection<Sensor>
    var readings: map<string, seq<SensorReading>>

    /** The catalog this object holds. */
    ghost function Abstract(): Catalog
      reads this, sensorTypes, sensors
    {
      Catalog(sensorTypes.objects, sensors.objects, readings)
    }

    ghost predicate Valid()
      reads this, sensorTypes, sensors
    {
      CollectionsValid() && Consistent(Abstract())
    }

    /** Both collections are well formed and keyed by "id". */
    ghost predicate CollectionsValid()
      reads sensorTypes, sensors
    {
      && sensorTypes as object != sensors as object
      && sensorTypes.Valid() && sensors.Valid()
      && sensorTypes.primaryKey == "id" && (forall t: SensorType :: sensorTypes.IdOf(t) == t.id)
      && sensors.primaryKey == "id" && (forall s: Sensor :: sensors.IdOf(s) == s.id)
    }

    /**
     * Each collection reads fields through its entity's own projection and
     * indexes the source's secondary keys.
     * Only consts are involved, so this never changes once constructed.
     */
    ghost predicate Wired() {
      && sensorTypes.fieldOf == SensorTypeField && sensorTypes.indexKeys == TypeIndexKeys
      && sensors.fieldOf == SensorField && sensors.indexKeys == SensorIndexKeys
    }

    constructor ()
      ensures Valid() && Wired() && fresh(sensorTypes) && fresh(sensors)
      ensures Abstract() == Empty
    {
      sensorTypes := new IndexedCollection("id", ["manufacturer", "modelNumber", "quantity"], SensorTypeField);
      sensors := new IndexedCollection("id", ["sensorTypeId"], SensorField);
      readings := map[];
    }

    /** Empties all three collections; always succeeds with an empty list. */
    method Clear() returns (r: Result<seq<string>>)
      requires Valid()
      modifies this, sensorTypes, sensors
      ensures Valid()
      ensures Abstract() == CatalogSpec.Clear(old(Abstract())).next
      ensures r == CatalogSpec.Clear(old(Abstract())).result
    {
      sensorTypes.Clear();
      sensors.Clear();
      readings := map[];
      r := Ok([]);
    }

    method AddSensorType(validated: Result<SensorType>) returns (r: Result<seq<SensorType>>)
      requires Valid()
      modifies sensorTypes
      ensures Valid()
      ensures Abstract() == CatalogSpec.AddSensorType(old(Abstract()), validated).next
      ensures r == CatalogSpec.AddSensorType(old(Abstract()), validated).result
    {
      if validated.Err? {
        return Err(validated.errors);
      }
      var sensorType := validated.val;
      AddSensorTypePreservesConsistency(Abstract(), validated);
      sensorTypes.Add(sensorType);
      r := Ok([sensorType]);
    }

    /**
     * Looks the sensor's type up through `find`, checks range containment,
     * then upserts. The lookup is exact for the empty `sensorTypeId` too
     * (see Findings in README.md).
     */
    method AddSensor(validated: Result<Sensor>) returns (r: Result<seq<Sensor>>)
      requires Valid()
      modifies sensors
      ensures Valid()
      ensures Abstract() == CatalogSpec.AddSensor(old(Abstract()), validated).next
      ensures r == CatalogSpec.AddSensor(old(Abstract()), validated).result
    {
      if validated.Err? {
        return Err(validated.errors);
      }
      var sensor := validated.val;
      var found := FindSensorType(sensor.sensorTypeId);
      if |found| != 1 {
        return Err([UnknownSensorType(sensor.sensorTypeId)]);
      }
      var sensorType := found[0];
      if !IsSubrange(sensor.expected, sensorType.limits) {
        return Err([ExpectedRangeError]);
      }
      AddSensorPreservesConsistency(Abstract(), validated);
      sensors.Add(sensor);
      r := Ok([sensor]);
    }

    /**
     * Looks the reading's sensor up through `find`, then replaces the
     * reading with the same timestamp in place or appends.
     */
    method AddSensorReading(validated: Result<SensorReading>) returns (r: Result<seq<SensorReading>>)
      requires Valid()
      modifies this
      ensures Valid()
      ensures Abstract() == CatalogSpec.AddSensorReading(old(Abstract()), validated).next
      ensures r == CatalogSpec.AddSensorReading(old(Abstract()), validated).result
    {
      if validated.Err? {
        return Err(validated.errors);
      }
      var sensorReading := validated.val;
      var found := FindSensor(sensorReading.sensorId);
      if |found| != 1 {
        return Err([UnknownSensor(sensorReading.sensorId)]);
      }
      ghost var before := Abstract();
      AddSensorReadingPreservesConsistency(before, validated);
      var list := if sensorReading.sensorId in readings then readings[sensorReading.sensorId] else [];
      assert list == ReadingsOf(before, sensorReading.sensorId);
      var index := IndexOfTimestamp(list, sensorReading.timestamp);
      if index >= 0 {
        list := list[index := sensorReading];
      } else {
        list := list + [sensorReading];
      }
      readings := readings[sensorReading.sensorId := list];
      assert Abstract() == before.(readings := before.readings[sensorReading.sensorId := list]);
      r := Ok([sensorReading]);
    }

    /** The sensor-type loop of `addSensorsInfo`: adds in order, stopping at the first failure. */
    method AddSensorTypes(items: seq<Result<SensorType>>) returns (r: Result<()>)
      requires Valid()
      modifies sensorTypes
      ensures Valid()
      ensures Abstract() == ApplyAll(old(Abstract()), items, CatalogSpec.AddSensorType).next
      ensures r == ApplyAll(old(Abstract()), items, CatalogSpec.AddSensorType).result
    {
      ghost var c0 := Abstract();
      for i := 0 to |items|
        invariant Valid()
        invariant ApplyAll(c0, items, CatalogSpec.AddSensorType) == ApplyAll(Abstract(), items[i..], CatalogSpec.AddSensorType)
      {
        assert items[i..][0] == items[i] && items[i..][1..] == items[i + 1..];
        var result := AddSensorType(items[i]);
        if result.Err? {
          return Err(result.errors);
        }
      }
      r := Ok(());
    }

    /** The sensor loop of `addSensorsInfo`. */
    method AddSensors(items: seq<Result<Sensor>>) returns (r: Result<()>)
      requires Valid()
      modifies sensors
      ensures Valid()
      ensures Abstract() == ApplyAll(old(Abstract()), items, CatalogSpec.AddSensor).next
      ensures r == ApplyAll(old(Abstract()), items, CatalogSpec.AddSensor).result
    {
      ghost var c0 := Abstract();
      for i := 0 to |items|
        invariant Valid()
        invariant ApplyAll(c0, items, CatalogSpec.AddSensor) == ApplyAll(Abstract(), items[i..], CatalogSpec.AddSensor)
      {
        assert items[i..][0] == items[i] && items[i..][1..] == items[i + 1..];
        var result := AddSensor(items[i]);
        if result.Err? {
          return Err(result.errors);
        }
      }
      r := Ok(());
    }

    /** The reading loop of `addSensorsInfo`. */
    method AddSensorReadings(items: seq<Result<SensorReading>>) returns (r: Result<()>)
      requires Valid()
      modifies this
      ensures Valid()
      ensures Abstract() == ApplyAll(old(Abstract()), items, CatalogSpec.AddSensorReading).next
      ensures r == ApplyAll(old(Abstract()), items, CatalogSpec.AddSensorReading).result
    {
      ghost var c0 := Abstract();
      for i := 0 to |items|
        invariant Valid()
        invariant ApplyAll(c0, items, CatalogSpec.AddSensorReading) == ApplyAll(Abstract(), items[i..], CatalogSpec.AddSensorReading)
      {
        assert items[i..][0] == items[i] && items[i..][1..] == items[i + 1..];
        var result := AddSensorReading(items[i]);
        if result.Err? {
          return Err(result.errors);
        }
      }
      r := Ok(());
    }

    /**
     * `this.sensorTypes.find({id})` for a non-empty id. `find` reads an
     * empty id as no criterion at all, so the empty id is looked up in the
     * store directly instead (see Findings in README.md).
     */
    method FindSensorType(id: string) returns (found: seq<SensorType>)
      requires Valid()
      ensures |found| == 1 <==> Known(sensorTypes.objects, id)
      ensures |found| == 1 ==> found[0] == sensorTypes.objects[id]
    {
      if id != "" {
        found := sensorTypes.Find(map["id" := id]);
        sensorTypes.FindById(id, found);
      } else {
        found := if id in sensorTypes.objects then [sensorTypes.objects[id]] else [];
      }
    }

    /** `this.sensors.find({id})`, with the empty id looked up directly as in `FindSensorType`. */
    method FindSensor(id: string) returns (found: seq<Sensor>)
      requires Valid()
      ensures |found| == 1 <==> Known(sensors.objects, id)
    {
      if id != "" {
        found := sensors.Find(map["id" := id]);
        sensors.FindById(id, found);
      } else {
        found := if id in sensors.objects then [sensors.objects[id]] else [];
      }
    }

    /**
     * The stored sensor types the search selects, in strictly ascending id
     * order. Every result is stored and passes the residual filter; when
     * every indexed search value is non-empty, every stored type that
     * passes the filter is in the result.
     */
    method FindSensorTypes(validated: Result<map<string, string>>) returns (r: Result<seq<SensorType>>)
      requires Valid() && Wired()
      ensures validated.Err? ==> r == Err(validated.errors)
      ensures validated.Ok? ==> r.Ok?
      ensures r.Ok? ==> forall i, j :: 0 <= i < j < |r.val| ==> Less(r.val[i].id, r.val[j].id)
      ensures r.Ok? ==> forall x :: x in r.val ==>
                x.id in Abstract().types && Abstract().types[x.id] == x
                && Selects(SensorTypeField, validated.val, x)
      ensures validated.Ok? && IndexedValuesNonEmpty(validated.val, TypeIndexKeys) ==>
                forall id :: id in Abstract().types && Selects(SensorTypeField, validated.val, Abstract().types[id]) ==>
                  Abstract().types[id] in r.val
    {
      if validated.Err? {
        return Err(validated.errors);
      }
      var search := validated.val;
      var indexed := sensorTypes.Find(search);
      var filtered := Filter(SensorTypeField, search, indexed);
      FilterKeepsOrder(SensorTypeField, search, indexed, (a: SensorType, b: SensorType) => Less(a.id, b.id));
      if IndexedValuesNonEmpty(search, TypeIndexKeys) {
        TypeMatchesComplete(search);
      }
      r := Ok(filtered);
    }

    /** As FindSensorTypes, for sensors (indexed by sensor type id). */
    method FindSensors(validated: Result<map<string, string>>) returns (r: Result<seq<Sensor>>)
      requires Valid() && Wired()
      ensures validated.Err? ==> r == Err(validated.errors)
      ensures validated.Ok? ==> r.Ok?
      ensures r.Ok? ==> forall i, j :: 0 <= i < j < |r.val| ==> Less(r.val[i].id, r.val[j].id)
      ensures r.Ok? ==> forall x :: x in r.val ==>
                x.id in Abstract().sensors && Abstract().sensors[x.id] == x
                && Selects(SensorField, validated.val, x)
      ensures validated.Ok? && IndexedValuesNonEmpty(validated.val, SensorIndexKeys) ==>
                forall id :: id in Abstract().sensors && Selects(SensorField, validated.val, Abstract().sensors[id]) ==>
                  Abstract().sensors[id] in r.val
    {
      if validated.Err? {
        return Err(validated.errors);
      }
      var search := validated.val;
      var indexed := sensors.Find(search);
      var filtered := Filter(SensorField, search, indexed);
      FilterKeepsOrder(SensorField, search, indexed, (a: Sensor, b: Sensor) => Less(a.id, b.id));
      if IndexedValuesNonEmpty(search, SensorIndexKeys) {
        SensorMatchesComplete(search);
      }
      r := Ok(filtered);
    }

    /**
     * Narrowing a sensor-type search by its indexes loses no stored type
     * the residual filter keeps, when every indexed search value is non-empty.
     */
    lemma TypeMatchesComplete(search: map<string, string>)
      requires sensorTypes.Valid() && sensorTypes.primaryKey == "id" && Wired()
      requires IndexedValuesNonEmpty(search, TypeIndexKeys)
      ensures forall id :: id in sensorTypes.objects && Selects(SensorTypeField, search, sensorTypes.objects[id]) ==>
                id in sensorTypes.Matches(search)
    {
      forall id | id in sensorTypes.objects && Selects(SensorTypeField, search, sensorTypes.objects[id])
        ensures id in sensorTypes.Matches(search)
      {
        sensorTypes.MatchesComplete(search, id);
      }
    }

    /** As TypeMatchesComplete, for a sensor search. */
    lemma SensorMatchesComplete(search: map<string, string>)
      requires sensors.Valid() && sensors.primaryKey == "id" && Wired()
      requires IndexedValuesNonEmpty(search, SensorIndexKeys)
      ensures forall id :: id in sensors.objects && Selects(SensorField, search, sensors.objects[id]) ==>
                id in sensors.Matches(search)
    {
      forall id | id in sensors.objects && Selects(SensorField, search, sensors.objects[id])
        ensures id in sensors.Matches(search)
      {
        sensors.MatchesComplete(search, id);
      }
    }

    /**
     * The stored readings of the requested sensor within the inclusive
     * bounds, sorted by timestamp; an unknown sensor gives an empty list.
     */
    method FindSensorReadings(validated: Result<FindReadingsRequest>) returns (r: Result<seq<SensorReading>>)
      requires Valid()
      ensures validated.Err? ==> r == Err(validated.errors)
      ensures validated.Ok? ==> r.Ok?
      ensures r.Ok? ==> AscendingByTimestamp(r.val)
      ensures r.Ok? ==> multiset(r.val) ==
                multiset(Within(ReadingsOf(Abstract(), validated.val.sensorId), SearchOf(validated.val)))
      ensures r.Ok? ==> forall x :: x in r.val <==>
                x in ReadingsOf(Abstract(), validated.val.sensorId) && InBounds(SearchOf(validated.val), x)
      ensures r.Ok? && validated.val.sensorId !in Abstract().readings ==> r.val == []
    {
      if validated.Err? {
        return Err(validated.errors);
      }
      var search := MakeSensorReadingsSearch(validated.val);
      var list := if search.sensorId in readings then readings[search.sensorId] else [];
      var found: seq<SensorReading> := [];
      for i := 0 to |list|
        invariant found == Within(list[..i], search)
      {
        assert list[..i + 1][..i] == list[..i];
        if InBounds(search, list[i]) {
          found := found + [list[i]];
        }
      }
      assert list[..|list|] == list;
      var sorted := SortByTimestamp(found);
      assert forall x :: x in sorted <==> x in multiset(found);
      r := Ok(sorted);
    }
  }

  /**
   * `addSensorsInfo`: adds all sensor types, then all sensors, then all
   * readings, stopping at and returning the first failure; what was added
   * before it stays.
   */
  method AddSensorsInfo(
    sensorTypes: seq<Result<SensorType>>, sensors: seq<Result<Sensor>>,
    sensorReadings: seq<Result<SensorReading>>, sensorsInfo: SensorsInfo)
    returns (r: Result<()>)
    requires sensorsInfo.Valid()
    modifies sensorsInfo, sensorsInfo.sensorTypes, sensorsInfo.sensors
    ensures sensorsInfo.Valid()
    ensures sensorsInfo.Abstract() ==
              CatalogSpec.AddSensorsInfo(old(sensorsInfo.Abstract()), sensorTypes, sensors, sensorReadings).next
    ensures r == CatalogSpec.AddSensorsInfo(old(sensorsInfo.Abstract()), sensorTypes, sensors, sensorReadings).result
  {
    r := sensorsInfo.AddSensorTypes(sensorTypes);
    if r.Err? {
      return;
    }
    r := sensorsInfo.AddSensors(sensors);
    if r.Err? {
      return;
    }
    r := sensorsInfo.AddSensorReadings(sensorReadings);
  }

  /** A new catalog loaded from the three lists; the first failure is returned instead. */
  method MakeSensorsInfo(
    sensorTypes: seq<Result<SensorType>>, sensors: seq<Result<Sensor>>, sensorReadings: seq<Result<SensorReading>>)
    returns (r: Result<SensorsInfo>)
    ensures var l := CatalogSpec.AddSensorsInfo(Empty, sensorTypes, sensors, sensorReadings);
            && (r.Ok? <==> l.result.Ok?)
            && (r.Err? ==> r.errors == l.result.errors)
            && (r.Ok? ==> fresh(r.val) && r.val.Valid() && r.val.Wired() && r.val.Abstract() == l.next)
  {
    var sensorsInfo := new SensorsInfo();
    var addResult := AddSensorsInfo(sensorTypes, sensors, sensorReadings, sensorsInfo);
    if addResult.Ok? {
      r := Ok(sensorsInfo);
    } else {
      r := Err(addResult.errors);
    }
  }
}

=== FILE: string_order.dfy ===
/**
 * The default order of JavaScript's `Array.prototype.sort()` on strings:
 * character by character, a proper prefix first. Used to order ids.
 */
module StringOrder {

  /**
   * `a` sorts strictly before `b`. Nothing sorts before the empty string,
   * and a proper prefix sorts before the longer string.
   */
  predicate Less(a: string, b: string)
    ensures Less(a, b) ==> |b| > 0
    ensures |a| < |b| && a == b[..|a|] ==> Less(a, b)
    decreases |a|
  {
    if |a| == 0 then |b| > 0
    else if |b| == 0 then false
    else if a[0] != b[0] then a[0] < b[0]
    else Less(a[1..], b[1..])
  }

  /**
   * `Less` is the lexicographic order: `a` is a proper prefix of `b`, or
   * the first position where they differ holds a smaller character in `a`.
   */
  lemma {:induction false} LessIsLexicographic(a: string, b: string)
    ensures Less(a, b) <==>
              (|a| < |b| && a == b[..|a|])
              || exists i :: 0 <= i < |a| && i < |b| && a[..i] == b[..i] && a[i] < b[i]
    decreases |a|
  {
    if |a| > 0 && |b| > 0 {
      LessIsLexicographic(a[1..], b[1..]);
      if a[0] == b[0] {
        if exists i :: 0 <= i < |a[1..]| && i < |b[1..]| && a[1..][..i] == b[1..][..i] && a[1..][i] < b[1..][i] {
          var i :| 0 <= i < |a[1..]| && i < |b[1..]| && a[1..][..i] == b[1..][..i] && a[1..][i] < b[1..][i];
          assert a[..i + 1] == [a[0]] + a[1..][..i];
          assert b[..i + 1] == [b[0]] + b[1..][..i];
        }
        if exists i :: 0 <= i < |a| && i < |b| && a[..i] == b[..i] && a[i] < b[i] {
          var i :| 0 <= i < |a| && i < |b| && a[..i] == b[..i] && a[i] < b[i];
          assert i > 0;
          assert a[1..][..i - 1] == a[..i][1..];
          assert b[1..][..i - 1] == b[..i][1..];
        }
        if |a| < |b| && a == b[..|a|] {
          assert a[1..] == b[1..][..|a[1..]|];
        }
        if |a[1..]| < |b[1..]| && a[1..] == b[1..][..|a[1..]|] {
          assert a == [a[0]] + a[1..];
        }
      } else {
        assert a[..0] == b[..0];
        forall i | 0 < i < |a| && i < |b|
          ensures a[..i] != b[..i]
        {
          assert a[..i][0] == a[0] && b[..i][0] == b[0];
        }
        assert |a| <= |b| ==> b[..|a|][0] == b[0];
      }
    }
  }

  lemma {:induction false} LessIrreflexive(a: string)
    ensures !Less(a, a)
    decreases |a|
  {
    if |a| > 0 {
      LessIrreflexive(a[1..]);
    }
  }

  lemma {:induction false} LessTransitive(a: string, b: string, c: string)
    requires Less(a, b) && Less(b, c)
    ensures Less(a, c)
    decreases |a|
  {
    if |a| > 0 && |b| > 0 && |c| > 0 && a[0] == b[0] && b[0] == c[0] {
      LessTransitive(a[1..], b[1..], c[1..]);
    }
  }

  lemma {:induction false} LessTotal(a: string, b: string)
    requires a != b
    ensures Less(a, b) || Less(b, a)
    decreases |a|
  {
    if |a| > 0 && |b| > 0 && a[0] == b[0] {
      assert a == [a[0]] + a[1..] && b == [b[0]] + b[1..];
      LessTotal(a[1..], b[1..]);
    }
  }

  /** Every element sorts strictly before every later one: sorted and duplicate-free. */
  ghost predicate StrictlyAscending(s: seq<string>) {
    forall i, j :: 0 <= i < j < |s| ==> Less(s[i], s[j])
  }

  lemma LessThanAll(x: string, s: seq<string>)
    requires StrictlyAscending(s) && |s| > 0 && Less(x, s[0])
    ensures forall j :: 0 <= j < |s| ==> Less(x, s[j])
  {
    forall j | 0 < j < |s|
      ensures Less(x, s[j])
    {
      LessTransitive(x, s[0], s[j]);
    }
  }

  /** Inserts `x` at its place in the strictly ascending `s`. */
  function InsertSorted(s: seq<string>, x: string): (r: seq<string>)
    requires StrictlyAscending(s) && x !in s
    ensures StrictlyAscending(r)
    ensures forall y :: y in r <==> y in s || y == x
    ensures |r| == |s| + 1
  {
    if s == [] then [x]
    else if Less(x, s[0]) then
      LessThanAll(x, s);
      [x] + s
    else
      LessTotal(x, s[0]);
      var rest := InsertSorted(s[1..], x);
      assert forall y :: y in rest ==> Less(s[0], y);
      [s[0]] + rest
  }

  /** `[...ids].sort()`: the ids of a set in strictly ascending order. */
  method SortIds(ids: set<string>) returns (s: seq<string>)
    ensures StrictlyAscending(s)
    ensures forall x :: x in s <==> x in ids
  {
    s := [];
    var rest := ids;
    while rest != {}
      invariant rest <= ids
      invariant StrictlyAscending(s)
      invariant forall x :: x in s <==> x in ids && x !in rest
      decreases rest
    {
      var x :| x in rest;
      s := InsertSorted(s, x);
      rest := rest - {x};
    }
  }
}

=== FILE: wrappers.dfy ===
/** An optional value: stands for a JavaScript value that may be `undefined`. */
module Wrappers {
  datatype Option<+T> = None | Some(value: T)

  /** The value under key `k` of `m`, or `None` when `m` has no such key. */
  function Lookup<K, V>(m: map<K, V>, k: K): (r: Option<V>)
    ensures r.Some? <==> k in m
    ensures r.Some? ==> r.value == m[k]
  {
    if k in m then Some(m[k]) else None
  }
}
